=== FILE: README.md ===
# Prompt submission and history: a Dafny model

This project models the sequential core of a small Remix application in which a
signed-in user spends a token balance to send a prompt to a text-completion
provider and sees a short history of earlier prompts:

- the home route's `action` (`app/routes/index.tsx`): four ordered,
  short-circuiting checks on the posted `tokens` and `prompt` fields, then the
  provider call, the history insert and the balance overwrite;
- the home route's `loader`: the 404/200 decision for the page;
- the history store (`app/models/completion.server.ts`): `createCompletion`
  appends one record, `getCompletionListItems` lists a user's six most recent
  prompts.

Everything is a pure function over immutable values. The database is a value
`Db(completions, users)`; a request's effect is the `Db` it leaves behind. The
provider reply and the identity/timestamp the database assigns to a new record
are parameters, and the outcome records the arguments the route passes to
`makeRequest`, if it calls it, so "no provider call" and "no write" are statements about values.

Files:

- `wrappers.dfy` — `Option` and `Result`.
- `ids.dfy` — module `Ids`: the database identity type both tables use.
- `js_coercion.dfy` — module `JsCoercion`: JavaScript's string coercions, unary `+` on a string
  (`ToNumber`, with `NaN`) and `.length` in UTF-16 code units (`Utf16Length`).
- `history.dfy` — module `History`: completion records, `CreateCompletion`,
  the listing (`Owned` → `NewestFirst` → first `PageSize` = 6 → `{id, prompt}`).
- `ledger.dfy` — module `Ledger`: users with a token balance, lookup and
  balance overwrite as the route uses them (`app/models/user.server.ts` is not
  part of this model).
- `route.dfy` — module `Route`: `Validate`, `Action`, `Loader`.
- `route_properties.dfy` — module `RouteProperties`: lemmas about the route.

Modelling choices:

- **Token parsing.** `+tokens` is modelled by `JsCoercion.ToNumber`: JavaScript
  white space around the text is ignored, empty text reads as 0, an optionally
  signed run of decimal digits reads as its integer value, and every other text
  reads as `NaN`. `NaN > balance` is false, so, as in the code, a non-numeric
  token string passes the balance check.
- **Missing user.** As in the code, the balance check is skipped when no user
  is stored under the session's identity. Such a request then reaches the
  provider call and faults when the record is written (`connect` to a missing
  user) or, failing that, at `currentUser!.tokens`; the model ends it in
  `Fault(MissingUser)` with nothing stored.
- **Faults.** The code does not catch exceptions after validation. The model
  ends those requests in `Fault(kind)` with the database unchanged:
  `MissingChoice` when the reply has no first choice (`data.choices[0].text`,
  including the caught-fetch-failure body), `MissingUser` as above, and
  `NonNumericCost` when a `NaN` token count reaches the record insert.
- **Prompt length** is `.length` in UTF-16 code units, so a character outside
  the Basic Multilingual Plane counts twice (`ScenarioAstralPrompt`).
- **Timestamps and identities** come from a `Stamp` parameter. Ties in
  `createdAt` are ordered by the database; the model's sort puts the
  later-stored record first, and no property depends on the tie order.

Where the code departs from what one might expect, the model follows the code:
the first check only asks for a non-empty string (it does not ask that it be a
number); the balance check is skipped for a missing user; nothing rejects a
negative token count, whose success path raises the balance
(`AcceptedDebitsRequest` holds for every integer up to the balance).

## Model

| member | source | states |
|---|---|---|
| JsCoercion.ToNumber | app/routes/index.tsx:60 | unary `+` on the tokens text: blank text reads as 0; text reads as NaN exactly when a non-digit follows the first character, the first character is neither a digit nor a sign, or a sign stands alone; a digit run, leading zeros included, reads as its decimal value, and with a leading `+` or `-` as that value or its negation |
| JsCoercion.DigitsReadAsValue | app/routes/index.tsx:60 | digit text with no surrounding white space, leading zeros included, reads as its decimal value |
| JsCoercion.DigitsValueLeadingZero | app/routes/index.tsx:60 | a leading zero does not change the decimal value of a digit run |
| JsCoercion.NonDigitAfterFirstIsNaN | app/routes/index.tsx:60 | text with no surrounding white space and a non-digit after its first character reads as NaN in this model; JavaScript reads fractions, exponents and `0x`/`0o`/`0b` text such as "1.5" or "1e3" as numbers (see Left out) |
| JsCoercion.ToNumberShowInt | app/routes/index.tsx:60 | every integer written in decimal reads back as itself through `+tokens` |
| JsCoercion.Utf16Length | app/routes/index.tsx:74 | a string's `.length` lies between its character count and twice that, and a single character counts 2 units outside the Basic Multilingual Plane and 1 inside it |
| JsCoercion.Utf16LengthConcat | app/routes/index.tsx:74 | `.length` of a concatenation is the sum of the lengths, so with the one-character case it fixes the count of every string |
| JsCoercion.Utf16LengthIsSize | app/routes/index.tsx:74 | `.length` equals the character count exactly when no character needs a surrogate pair |
| History.Owned | app/models/completion.server.ts:7 | the `where: { userId }` filter keeps exactly the user's stored records: every kept record is the user's and stored, and every stored record of the user is kept |
| History.OwnedMultiset | app/models/completion.server.ts:7 | the filter keeps every copy of each of the user's records and no record of anyone else |
| History.NewestFirst | app/models/completion.server.ts:9 | ordering by `createdAt` is a permutation of the user's records |
| History.NewestFirstSorted | app/models/completion.server.ts:9 | the ordered records are most recent first |
| History.NewestFirstMembers | app/models/completion.server.ts:9 | ordering neither adds nor drops a record |
| History.Recent | app/models/completion.server.ts:5-11 | the listing has at most 6 records, each the user's own and stored, most recent first |
| History.RecentIsPrefix | app/models/completion.server.ts:6-11 | the listing is exactly the first 6 of the user's records sorted newest first, or all of them when there are fewer |
| History.RecentCount | app/models/completion.server.ts:10 | the listing holds 6 records, or all of the user's records when there are fewer, and lists no record more often than the user has it |
| History.RecentAllWhenFew | app/models/completion.server.ts:7-10 | a user with at most 6 records sees every one of them |
| History.RecentAreNewest | app/models/completion.server.ts:9-10 | no unlisted record of the user is newer than a listed one |
| History.ListItems | app/models/completion.server.ts:8 | each listed item carries only the `id` and `prompt` of the listed record, at most 6 items |
| History.ListItemsSound | app/models/completion.server.ts:7-8 | every listed item is the id and prompt of a stored record of that user; other users' records never appear |
| History.CreateCompletion | app/models/completion.server.ts:14-33 | exactly one record is appended, holding the given prompt, tokens, answer and owner; earlier records and other users' histories are unchanged |
| History.CreateKeepsIdsDistinct | app/models/completion.server.ts:22-33 | storing under a fresh identity keeps identities distinct |
| History.LatestListedFirst | app/models/completion.server.ts:5-33 | a record created after all of the user's others is listed first |
| History.TwoCreatesListedInReverse | app/models/completion.server.ts:5-33 | two successive creates are listed second one first, first one second |
| Route.Validate | app/routes/index.tsx:53-79 | every refusal names exactly one field; an accepted submission has a prompt of at least 5 code units, a non-empty tokens text, and a cost within a stored user's balance |
| Route.Action | app/routes/index.tsx:45-95 | status 400 exactly when no provider request is sent, with exactly one field error and no write; on 200 `errors` is null, the record holds the submitted prompt, cost and answer, and the updated user is the stored user with only the balance changed, to the old balance minus the cost, which is at least 0; nothing but a 200 writes |
| Route.FirstChoice | app/routes/index.tsx:82 | `data.choices[0].text` yields an answer exactly when the reply has a first choice, and that answer is its text |
| Ledger.GetUserById | app/routes/index.tsx:47 | `getUserById` finds a user exactly when one is stored under the identity, and returns that stored user |
| Ledger.UpdateUserTokens | app/routes/index.tsx:91-92 | `updateUserTokens` overwrites the balance with the absolute value given, keeping the user's identity, email and every other user |
| Route.Loader | app/routes/index.tsx:97-116 | 404 (thrown) when the user is missing or has no records, with "No has hecho preguntas" in the latter case; otherwise 200 with the user's listing (1 to 6 items) and the user |
| RouteProperties.ValidateAcceptsIff | app/routes/index.tsx:53-79 | a submission passes validation exactly when all four checks pass |
| RouteProperties.MissingTokensRejected | app/routes/index.tsx:53-58 | missing or empty tokens give `{tokens: "Campo obligatorio", prompt: null}` with 400, whatever the prompt, and no call or write |
| RouteProperties.NotEnoughTokensRejected | app/routes/index.tsx:60-65 | tokens above a stored user's balance give `{tokens: "No tienes suficientes tokens", prompt: null}` with 400 even for a missing or short prompt |
| RouteProperties.MissingPromptRejected | app/routes/index.tsx:67-72 | with acceptable tokens, a missing or empty prompt gives `{tokens: null, prompt: "Campo obligatorio"}` with 400 |
| RouteProperties.ShortPromptRejected | app/routes/index.tsx:74-79 | with acceptable tokens, a prompt of 1 to 4 code units gives `{tokens: null, prompt: "Mínimo 5 caracteres"}` with 400 |
| RouteProperties.FiveCharacterPromptAccepted | app/routes/index.tsx:74-79 | a prompt of exactly five ordinary characters passes the length check |
| RouteProperties.ActionSucceedsIff | app/routes/index.tsx:53-94 | a request completes exactly when validation passes, the reply has a first choice, the user is stored and the cost is a number |
| RouteProperties.AcceptedDebitsRequest | app/routes/index.tsx:84-94 | a request for n tokens within the balance succeeds, lowers the balance by exactly n and appends one record costing n with the submitted prompt |
| RouteProperties.SpendingWholeBalanceLeavesZero | app/routes/index.tsx:91 | requesting exactly the balance leaves a balance of 0 |
| RouteProperties.ActionKeepsBalancesNonNegative | app/routes/index.tsx:60-92 | no request drives a stored balance below zero |
| RouteProperties.ActionTouchesOnlyItsUser | app/routes/index.tsx:84-92 | a request leaves every other user's balance and history unchanged |
| RouteProperties.NonNumericCostFaults | app/routes/index.tsx:60-87 | tokens text reading as NaN passes a stored user's balance check, is passed to `makeRequest` as NaN (serialised as `max_tokens: null`), and faults before any write |
| RouteProperties.MissingUserFaultsAfterProviderCall | app/routes/index.tsx:60-91 | without a stored user the balance check is skipped, the provider request is sent, and the request faults with nothing stored |
| RouteProperties.SubmitThenLoad | app/routes/index.tsx:84-115 | after a successful submission newer than the user's history, the loader answers 200 and lists the new prompt first |
| RouteProperties.ScenarioAccepted | app/routes/index.tsx:53-94 | balance 100, "Hello there", "50": accepted, balance 50, one record costing 50 |
| RouteProperties.ScenarioNotEnoughTokens | app/routes/index.tsx:60-65 | balance 10, tokens "50": tokens error, balance still 10, nothing stored |
| RouteProperties.ScenarioPromptTooShort | app/routes/index.tsx:74-79 | prompt "Hi" with tokens "10": prompt error, nothing stored |
| RouteProperties.ScenarioNonNumericTokens | app/routes/index.tsx:60-87 | tokens "abc" read as NaN, pass the balance check even at balance 0, are passed to `makeRequest` as NaN (serialised as `max_tokens: null`) and fault before any write |
| RouteProperties.LeadingZeroReadThrough | app/routes/index.tsx:60 | tokens text "0" followed by any digit run read as that run's value |
| RouteProperties.ExponentTextIsNaN | app/routes/index.tsx:60 | tokens "1e3" read as NaN in this model (see Left out) |
| RouteProperties.ScenarioAstralPrompt | app/routes/index.tsx:74 | three emoji count as six code units and pass the minimum length |

## Left out

- `makeRequest` (`app/routes/index.tsx:17-43`): the HTTP call to the completion provider, its JSON encoding, the API key from the environment. Its reply is a parameter; the model records the arguments (prompt and `max_tokens`) the route passes to it; on the wire `JSON.stringify` writes a NaN `max_tokens` as `null`.
- The JSON shape of the provider's reply beyond "has a first choice with a text": a first choice without a `text` field is not modelled.
- Session handling (`requireUserId`) and `app/models/user.server.ts`: the session's user identity is a parameter; the user table is a map.
- The lost update between the balance read and the balance write under concurrent requests: the model handles one request at a time.
- Prisma internals: identity and timestamp generation (a `Stamp` parameter), the schema's column types.
- Route.Action: the `NonNumericCost` fault assumes the database refuses a `NaN` token count; the schema is not part of this model. The HTTP status of an uncaught fault (the framework's error response) is not modelled.
- JsCoercion.ToNumber: reads only optionally signed decimal integers; the other numeric forms `+` accepts (fractions, exponents, `0x`/`0o`/`0b` prefixes, `Infinity`) read as NaN here, and integers beyond 2^53 are exact here but rounded in JavaScript. The tokens field is an `<input type="number">` (`app/routes/index.tsx:198-200`), from which a browser can submit exponent text such as "1e3": the code reads it as 1000, refusing it with 400 at balance 100 and debiting 1000 at balance 5000, while the model reads it as NaN (`ExponentTextIsNaN`), so both requests pass validation, reach `makeRequest` and end in `Fault(NonNumericCost)` with nothing stored.
- JsCoercion.NonDigitAfterFirstIsNaN: carries `ToNumber`'s reading of fractions, exponents and `0x`/`0o`/`0b` text, so "1.5", "5.", "1e3" and "0x1F" read as NaN here where JavaScript reads them as numbers.
- RouteProperties.ExponentTextIsNaN: states the model's NaN reading of "1e3", which JavaScript reads as 1000; the consequence for `Route.Action` is on the `JsCoercion.ToNumber` line.
- The `Index` React component, `app/components/CompletionList.tsx`, `toLocaleString`: rendering only.
- `cypress/e2e/smoke.cy.ts`: a browser test of registration and logout.

=== FILE: history.dfy ===
/**
 * The completion history store (app/models/completion.server.ts): an
 * append-only sequence of records, one query that creates a record and one
 * that lists the caller's most recent prompts.
 */
module History {
  import opened Ids

  /** One stored submission: who asked, what, at which token cost, the answer and when it was stored. */
  datatype Completion = Completion(
    id: Id,
    userId: Id,
    prompt: string,
    tokens: int,
    answer: string,
    createdAt: int)

  /** The `{ id, prompt }` projection the listing query selects. */
  datatype ListItem = ListItem(id: Id, prompt: string)

  /** What the database assigns to a new row: a fresh identity and a creation time. */
  datatype Stamp = Stamp(id: Id, createdAt: int)

  /** The history table, in insertion order. */
  type Store = seq<Completion>

  /** The listing query's `take`. */
  const PageSize: nat := 6

  /** The records of `store` owned by `userId`, in insertion order. */
  function Owned(store: Store, userId: Id): (r: Store)
    ensures |r| <= |store|
    ensures forall c :: c in r ==> c in store && c.userId == userId
    ensures forall c :: c in store && c.userId == userId ==> c in r
  {
    if |store| == 0 then []
    else
      var prefix := store[..|store| - 1];
      var last := store[|store| - 1];
      assert store == prefix + [last];
      Owned(prefix, userId) + (if last.userId == userId then [last] else [])
  }

  /** `Owned` keeps every copy of each of the user's records and nothing else. */
  lemma {:induction false} OwnedMultiset(store: Store, userId: Id, c: Completion)
    ensures multiset(Owned(store, userId))[c] == if c.userId == userId then multiset(store)[c] else 0
  {
    if |store| > 0 {
      var prefix := store[..|store| - 1];
      var last := store[|store| - 1];
      assert store == prefix + [last];
      OwnedMultiset(prefix, userId, c);
    }
  }

  /** Most recent first: creation times never increase along the sequence. */
  predicate SortedByNewest(s: Store) {
    forall i, j :: 0 <= i < j < |s| ==> s[i].createdAt >= s[j].createdAt
  }

  /** Places `c` into the newest-first sequence `s`, ahead of every record no newer than it. */
  function Insert(s: Store, c: Completion): (r: Store)
    ensures multiset(r) == multiset(s) + multiset{c}
  {
    if |s| == 0 || c.createdAt >= s[0].createdAt then [c] + s
    else
      assert s == [s[0]] + s[1..];
      [s[0]] + Insert(s[1..], c)
  }

  /** A record no older than every record of a newest-first sequence can lead it. */
  lemma ConsSorted(x: Completion, t: Store)
    requires SortedByNewest(t)
    requires forall k :: 0 <= k < |t| ==> t[k].createdAt <= x.createdAt
    ensures SortedByNewest([x] + t)
  {
    var r := [x] + t;
    forall i, j | 0 <= i < j < |r| ensures r[i].createdAt >= r[j].createdAt {
      assert r[j] == t[j - 1];
      if i > 0 {
        assert r[i] == t[i - 1];
      }
    }
  }

  /** Every record of `Insert(s, c)` is `c` or a record of `s`. */
  lemma InsertMembers(s: Store, c: Completion, k: nat)
    requires k < |Insert(s, c)|
    ensures Insert(s, c)[k] == c || Insert(s, c)[k] in s
  {
    var r := Insert(s, c);
    assert r[k] in multiset(r);
  }

  /** Inserting into a newest-first sequence keeps it newest first. */
  lemma {:induction false} InsertSorted(s: Store, c: Completion)
    requires SortedByNewest(s)
    ensures SortedByNewest(Insert(s, c))
  {
    if |s| > 0 && c.createdAt < s[0].createdAt {
      var tail := s[1..];
      var rest := Insert(tail, c);
      InsertSorted(tail, c);
      forall k | 0 <= k < |rest| ensures rest[k].createdAt <= s[0].createdAt {
        InsertMembers(tail, c, k);
        if rest[k] != c {
          var j :| 0 <= j < |tail| && tail[j] == rest[k];
          assert s[j + 1] == tail[j];
        }
      }
      ConsSorted(s[0], rest);
    }
  }

  /** The records of `s` ordered newest first (the query's `orderBy: { createdAt: "desc" }`). */
  function NewestFirst(s: Store): (r: Store)
    ensures multiset(r) == multiset(s)
  {
    if |s| == 0 then []
    else
      assert s == s[..|s| - 1] + [s[|s| - 1]];
      Insert(NewestFirst(s[..|s| - 1]), s[|s| - 1])
  }

  /** Sorting yields a newest-first sequence. */
  lemma {:induction false} NewestFirstSorted(s: Store)
    ensures SortedByNewest(NewestFirst(s))
  {
    if |s| > 0 {
      NewestFirstSorted(s[..|s| - 1]);
      InsertSorted(NewestFirst(s[..|s| - 1]), s[|s| - 1]);
    }
  }

  /**
   * The records behind `getCompletionListItems`: the user's records, newest
   * first, at most `PageSize` of them.
   */
  function Recent(store: Store, userId: Id): (r: Store)
    ensures |r| <= PageSize
    ensures forall i :: 0 <= i < |r| ==> r[i].userId == userId && r[i] in store
    ensures SortedByNewest(r)
  {
    var owned := Owned(store, userId);
    var k := if |owned| < PageSize then |owned| else PageSize;
    NewestPrefix(owned, k);
    NewestFirst(owned)[..k]
  }

  /** A prefix of the sorted records is newest first and holds only records of the input. */
  lemma NewestPrefix(s: Store, k: nat)
    requires k <= |s|
    ensures |NewestFirst(s)| == |s|
    ensures SortedByNewest(NewestFirst(s)[..k])
    ensures forall i :: 0 <= i < k ==> NewestFirst(s)[i] in s
  {
    var sorted := NewestFirst(s);
    assert |multiset(sorted)| == |s|;
    NewestFirstSorted(s);
    forall i | 0 <= i < k ensures sorted[i] in s {
      NewestFirstMember(s, i);
    }
  }

  /** Every record of the sorted sequence is a record of its input. */
  lemma NewestFirstMember(s: Store, i: nat)
    requires i < |NewestFirst(s)|
    ensures NewestFirst(s)[i] in s
  {
    assert NewestFirst(s)[i] in multiset(NewestFirst(s));
  }

  /** The sorted sequence holds exactly the records of its input. */
  lemma NewestFirstMembers(s: Store)
    ensures |NewestFirst(s)| == |s|
    ensures forall x :: x in NewestFirst(s) <==> x in s
  {
    var sorted := NewestFirst(s);
    assert |multiset(sorted)| == |s|;
    forall x ensures x in sorted <==> x in s {
      assert x in sorted <==> x in multiset(sorted);
      assert x in s <==> x in multiset(s);
    }
  }

  /** The listing is the first `PageSize` of the user's records sorted newest first (all of them when fewer). */
  lemma RecentIsPrefix(store: Store, userId: Id)
    ensures var sorted := NewestFirst(Owned(store, userId));
      && |sorted| == |Owned(store, userId)|
      && Recent(store, userId) == sorted[..if |sorted| < PageSize then |sorted| else PageSize]
  {
    NewestFirstMembers(Owned(store, userId));
  }

  /**
   * The listing holds `PageSize` records, or all of the user's records when
   * there are fewer, and lists no record more often than the user has it.
   */
  lemma RecentCount(store: Store, userId: Id)
    ensures var n := |Owned(store, userId)|;
      |Recent(store, userId)| == if n < PageSize then n else PageSize
    ensures multiset(Recent(store, userId)) <= multiset(Owned(store, userId))
  {
    RecentIsPrefix(store, userId);
    var sorted := NewestFirst(Owned(store, userId));
    PrefixSubMultiset(sorted, |Recent(store, userId)|);
  }

  /** A prefix holds no record more often than the whole sequence. */
  lemma PrefixSubMultiset(s: Store, k: nat)
    requires k <= |s|
    ensures multiset(s[..k]) <= multiset(s)
  {
    assert s == s[..k] + s[k..];
  }

  /** A user with at most `PageSize` records sees every one of them listed. */
  lemma RecentAllWhenFew(store: Store, userId: Id)
    requires |Owned(store, userId)| <= PageSize
    ensures multiset(Recent(store, userId)) == multiset(Owned(store, userId))
  {
    RecentIsPrefix(store, userId);
    assert Recent(store, userId) == NewestFirst(Owned(store, userId));
  }

  /** In a newest-first sequence, a record outside the first `k` is no newer than any of them. */
  lemma OutsidePrefixNoNewer(sorted: Store, k: nat, c: Completion, i: nat)
    requires SortedByNewest(sorted)
    requires i < k <= |sorted|
    requires c in sorted && c !in sorted[..k]
    ensures c.createdAt <= sorted[i].createdAt
  {
    var j :| 0 <= j < |sorted| && sorted[j] == c;
  }

  /** No unlisted record of the user is newer than any listed one: the listing is the user's latest records. */
  lemma RecentAreNewest(store: Store, userId: Id, c: Completion, i: nat)
    requires c in Owned(store, userId) && c !in Recent(store, userId)
    requires i < |Recent(store, userId)|
    ensures c.createdAt <= Recent(store, userId)[i].createdAt
  {
    var owned := Owned(store, userId);
    var sorted := NewestFirst(owned);
    NewestFirstSorted(owned);
    NewestFirstMembers(owned);
    RecentIsPrefix(store, userId);
    OutsidePrefixNoNewer(sorted, |Recent(store, userId)|, c, i);
  }

  /** `getCompletionListItems`: the `{ id, prompt }` of the user's most recent records. */
  function ListItems(store: Store, userId: Id): (r: seq<ListItem>)
    ensures |r| <= PageSize
    ensures |r| == |Recent(store, userId)|
    ensures forall i :: 0 <= i < |r| ==>
      r[i].id == Recent(store, userId)[i].id && r[i].prompt == Recent(store, userId)[i].prompt
  {
    var recent := Recent(store, userId);
    seq(|recent|, i requires 0 <= i < |recent| => ListItem(recent[i].id, recent[i].prompt))
  }

  /**
   * `createCompletion`: stores one new record with exactly the given prompt,
   * tokens, answer and owner, under the identity and time the database assigns.
   */
  function CreateCompletion(store: Store, stamp: Stamp, prompt: string, tokens: int, answer: string, userId: Id)
    : (r: (Store, Completion))
    ensures |r.0| == |store| + 1 && r.0[..|store|] == store && r.0[|store|] == r.1
    ensures r.1.prompt == prompt && r.1.tokens == tokens && r.1.answer == answer && r.1.userId == userId
    ensures r.1.id == stamp.id && r.1.createdAt == stamp.createdAt
    ensures forall u :: Owned(r.0, u) == Owned(store, u) + (if u == userId then [r.1] else [])
  {
    var added := Completion(stamp.id, userId, prompt, tokens, answer, stamp.createdAt);
    var store' := store + [added];
    assert store'[..|store|] == store;
    (store', added)
  }

  /** No two stored records share an identity. */
  predicate DistinctIds(store: Store) {
    forall i, j :: 0 <= i < j < |store| ==> store[i].id != store[j].id
  }

  /** Storing a record under an identity not yet in use keeps identities distinct. */
  lemma CreateKeepsIdsDistinct(store: Store, stamp: Stamp, prompt: string, tokens: int, answer: string, userId: Id)
    requires DistinctIds(store)
    requires forall c :: c in store ==> c.id != stamp.id
    ensures DistinctIds(CreateCompletion(store, stamp, prompt, tokens, answer, userId).0)
  {
    var store' := CreateCompletion(store, stamp, prompt, tokens, answer, userId).0;
    forall i, j | 0 <= i < j < |store'| ensures store'[i].id != store'[j].id {
      assert store'[i] == store[i];
      if j < |store| {
        assert store'[j] == store[j];
      } else {
        assert store[i] in store;
      }
    }
  }

  /** Every listed item is the `{ id, prompt }` of one of the user's stored records. */
  lemma ListItemsSound(store: Store, userId: Id, i: nat)
    requires i < |ListItems(store, userId)|
    ensures exists c :: c in store && c.userId == userId && ListItems(store, userId)[i] == ListItem(c.id, c.prompt)
  {
    var c := Recent(store, userId)[i];
    assert c in store && c.userId == userId;
  }

  /** In a newest-first sequence, a record strictly newer than every other one comes first. */
  lemma NewestIsFirst(s: Store, c: Completion)
    requires SortedByNewest(s)
    requires c in s
    requires forall x :: x in s && x != c ==> x.createdAt < c.createdAt
    ensures s[0] == c
  {
    var j :| 0 <= j < |s| && s[j] == c;
  }

  /** Sorting a user's records with one strictly newest record appended puts that record first. */
  lemma NewestOfAppendFirst(earlier: Store, c: Completion)
    requires forall x :: x in earlier ==> x.createdAt < c.createdAt
    ensures |NewestFirst(earlier + [c])| > 0 && NewestFirst(earlier + [c])[0] == c
  {
    var s := earlier + [c];
    NewestFirstSorted(s);
    NewestFirstMembers(s);
    NewestIsFirst(NewestFirst(s), c);
  }

  /** A record stored strictly after all of a user's other records is the first one listed for that user. */
  lemma {:induction false} LatestListedFirst(store: Store, stamp: Stamp, prompt: string, tokens: int, answer: string, userId: Id)
    requires forall c :: c in Owned(store, userId) ==> c.createdAt < stamp.createdAt
    ensures var (store', added) := CreateCompletion(store, stamp, prompt, tokens, answer, userId);
      && |Recent(store', userId)| > 0
      && Recent(store', userId)[0] == added
      && ListItems(store', userId)[0] == ListItem(added.id, added.prompt)
  {
    var (store', added) := CreateCompletion(store, stamp, prompt, tokens, answer, userId);
    assert Owned(store', userId) == Owned(store, userId) + [added];
    NewestOfAppendFirst(Owned(store, userId), added);
    RecentIsPrefix(store', userId);
  }

  /** In a newest-first sequence, the newest record comes first and the next newest second. */
  lemma TwoNewestLead(s: Store, c1: Completion, c2: Completion)
    requires SortedByNewest(s)
    requires c1 in s && c2 in s && c1.createdAt < c2.createdAt
    requires multiset(s)[c2] == 1
    requires forall x :: x in s && x != c1 && x != c2 ==> x.createdAt < c1.createdAt
    ensures |s| >= 2 && s[0] == c2 && s[1] == c1
  {
    NewestIsFirst(s, c2);
    var tail := s[1..];
    assert s == [s[0]] + tail;
    assert c1 in tail;
    assert multiset(s) == multiset{s[0]} + multiset(tail);
    forall x | x in tail && x != c1 ensures x.createdAt < c1.createdAt {
      assert x in s;
      assert x in multiset(tail);
    }
    NewestIsFirst(tail, c1);
  }

  /** Sorting a user's records with two successively newer records appended puts the later one first, the earlier second. */
  lemma NewestTwoOfAppend(earlier: Store, c1: Completion, c2: Completion)
    requires forall x :: x in earlier ==> x.createdAt < c1.createdAt
    requires c1.createdAt < c2.createdAt
    ensures var sorted := NewestFirst(earlier + [c1] + [c2]);
      |sorted| >= 2 && sorted[0] == c2 && sorted[1] == c1
  {
    var s := earlier + [c1] + [c2];
    var sorted := NewestFirst(s);
    NewestFirstSorted(s);
    NewestFirstMembers(s);
    assert multiset(s)[c2] == 1 by {
      assert c2 !in earlier;
      assert multiset(s) == multiset(earlier) + multiset{c1} + multiset{c2};
    }
    TwoNewestLead(sorted, c1, c2);
  }

  /** Two records stored one after the other, both later than the user's earlier ones, are listed second-stored first. */
  lemma {:induction false} TwoCreatesListedInReverse(
    store: Store, first: Stamp, second: Stamp, p1: string, t1: int, a1: string, p2: string, t2: int, a2: string, userId: Id)
    requires forall c :: c in Owned(store, userId) ==> c.createdAt < first.createdAt
    requires first.createdAt < second.createdAt
    ensures var (store1, added1) := CreateCompletion(store, first, p1, t1, a1, userId);
      var (store2, added2) := CreateCompletion(store1, second, p2, t2, a2, userId);
      && |Recent(store2, userId)| >= 2
      && Recent(store2, userId)[0] == added2
      && Recent(store2, userId)[1] == added1
  {
    var (store1, added1) := CreateCompletion(store, first, p1, t1, a1, userId);
    var (store2, added2) := CreateCompletion(store1, second, p2, t2, a2, userId);
    var earlier := Owned(store, userId);
    assert Owned(store1, userId) == earlier + [added1];
    assert Owned(store2, userId) == earlier + [added1] + [added2];
    NewestTwoOfAppend(earlier, added1, added2);
    var sorted := NewestFirst(Owned(store2, userId));
    assert |sorted| >= 2 && sorted[0] == added2 && sorted[1] == added1;
    RecentIsPrefix(store2, userId);
  }
}

=== FILE: ids.dfy ===
/** Identities shared by the user table and the completion history. */
module Ids {

  /** Database identities, of users and of completions alike. */
  type Id = string
}

=== FILE: js_coercion.dfy ===
/**
 * The two pieces of JavaScript string semantics the submission route relies on:
 * the unary `+` coercion that turns the `tokens` form field into a number, and
 * the `.length` of a string, which counts UTF-16 code units.
 */
module JsCoercion {

  /** A number produced by unary `+` on a string. The model covers integer values and NaN. */
  datatype Num = Int(v: int) | NaN

  /** JavaScript's `a > b` for a coerced number `a` and an integer `b`: every comparison with NaN is false. */
  predicate GreaterThan(a: Num, b: int) {
    a.Int? && a.v > b
  }

  /** The characters JavaScript strips before reading a number: WhiteSpace and LineTerminator. */
  predicate IsWhiteSpace(c: char) {
    || c in {'\U{9}', '\U{A}', '\U{B}', '\U{C}', '\U{D}', ' ', '\U{A0}', '\U{1680}'}
    || c in {'\U{2028}', '\U{2029}', '\U{202F}', '\U{205F}', '\U{3000}', '\U{FEFF}'}
    || ('\U{2000}' <= c <= '\U{200A}')
  }

  /** Drops leading white space. */
  function TrimStart(s: string): (r: string)
    ensures |r| <= |s| && r == s[|s| - |r|..]
    ensures r == [] || !IsWhiteSpace(r[0])
    ensures forall i :: 0 <= i < |s| - |r| ==> IsWhiteSpace(s[i])
  {
    if |s| > 0 && IsWhiteSpace(s[0]) then TrimStart(s[1..]) else s
  }

  /** Drops trailing white space. */
  function TrimEnd(s: string): (r: string)
    ensures |r| <= |s| && r == s[..|r|]
    ensures r == [] || !IsWhiteSpace(r[|r| - 1])
    ensures forall i :: |r| <= i < |s| ==> IsWhiteSpace(s[i])
  {
    if |s| > 0 && IsWhiteSpace(s[|s| - 1]) then TrimEnd(s[..|s| - 1]) else s
  }

  function Trim(s: string): string {
    TrimEnd(TrimStart(s))
  }

  predicate IsDigit(c: char) {
    '0' <= c <= '9'
  }

  predicate AllDigits(s: string) {
    forall i :: 0 <= i < |s| ==> IsDigit(s[i])
  }

  /** The value of a string of decimal digits, most significant first. */
  function DigitsValue(s: string): nat
    requires AllDigits(s)
  {
    if |s| == 0 then 0 else 10 * DigitsValue(s[..|s| - 1]) + (s[|s| - 1] as int - '0' as int)
  }

  /**
   * Unary `+` on a string: surrounding white space is ignored, an empty
   * remainder reads as 0, an optionally signed run of decimal digits reads as
   * its value, and anything else reads as NaN.
   */
  function ToNumber(s: string): (n: Num)
    ensures Trim(s) == [] ==> n == Int(0)
    ensures n.Int? && n.v < 0 ==> Trim(s)[0] == '-'
    ensures n.NaN? ==> exists i :: 0 <= i < |Trim(s)| && !IsDigit(Trim(s)[i])
    // Text reads as NaN exactly when a non-digit follows the first character,
    // the first character is neither a digit nor a sign, or a sign stands alone.
    ensures n.NaN? <==>
      || (exists i :: 0 < i < |Trim(s)| && !IsDigit(Trim(s)[i]))
      || (Trim(s) != [] && !IsDigit(Trim(s)[0]) && Trim(s)[0] != '+' && Trim(s)[0] != '-')
      || Trim(s) == "+" || Trim(s) == "-"
    // A run of digits, leading zeros included, reads as its decimal value.
    ensures AllDigits(Trim(s)) ==> n == Int(DigitsValue(Trim(s)))
    ensures |Trim(s)| > 1 && Trim(s)[0] == '+' && AllDigits(Trim(s)[1..]) ==> n == Int(DigitsValue(Trim(s)[1..]))
    ensures |Trim(s)| > 1 && Trim(s)[0] == '-' && AllDigits(Trim(s)[1..]) ==> n == Int(0 - DigitsValue(Trim(s)[1..]))
  {
    var t := Trim(s);
    if |t| == 0 then Int(0)
    else if AllDigits(t) then Int(DigitsValue(t))
    else if (t[0] == '+' || t[0] == '-') && |t| > 1 && AllDigits(t[1..]) then
      var m: int := DigitsValue(t[1..]);
      Int(if t[0] == '-' then -m else m)
    else
      assert (t[0] == '+' || t[0] == '-') && |t| > 1 ==> exists j :: 0 < j < |t| && !IsDigit(t[j]) by {
        if (t[0] == '+' || t[0] == '-') && |t| > 1 {
          var k :| 0 <= k < |t[1..]| && !IsDigit(t[1..][k]);
          assert t[k + 1] == t[1..][k];
        }
      }
      NaN
  }

  /** Untrimmed text with a non-digit after its first character reads as NaN. */
  lemma NonDigitAfterFirstIsNaN(s: string, i: nat)
    requires s != [] && !IsWhiteSpace(s[0]) && !IsWhiteSpace(s[|s| - 1])
    requires 0 < i < |s| && !IsDigit(s[i])
    ensures ToNumber(s) == NaN
  {
    TrimUntouched(s);
  }

  /** A leading zero does not change the value of digit text. */
  lemma {:induction false} DigitsValueLeadingZero(d: string)
    requires AllDigits(d)
    ensures AllDigits("0" + d) && DigitsValue("0" + d) == DigitsValue(d)
    decreases |d|
  {
    if |d| > 0 {
      var p := d[..|d| - 1];
      DigitsValueLeadingZero(p);
      assert ("0" + d)[..|"0" + d| - 1] == "0" + p;
    }
  }

  /** Untrimmed digit text, leading zeros included, reads as its decimal value. */
  lemma DigitsReadAsValue(s: string)
    requires s != [] && AllDigits(s)
    ensures ToNumber(s) == Int(DigitsValue(s))
  {
    TrimUntouched(s);
  }

  /** The decimal digits of `n`, with no leading zeros. */
  function ShowNat(n: nat): (r: string)
    ensures |r| > 0 && AllDigits(r)
    ensures DigitsValue(r) == n
    ensures |r| > 1 ==> r[0] != '0'
    decreases n
  {
    var d := [('0' as int + n % 10) as char];
    if n < 10 then d
    else
      var prefix := ShowNat(n / 10);
      assert (prefix + d)[..|prefix + d| - 1] == prefix;
      prefix + d
  }

  /** The decimal text of an integer, with a leading `-` for negative values. */
  function ShowInt(x: int): (r: string)
  {
    if x < 0 then "-" + ShowNat(-x) else ShowNat(x)
  }

  /** A string with no white space at either end is its own trim. */
  lemma TrimUntouched(s: string)
    requires s != [] && !IsWhiteSpace(s[0]) && !IsWhiteSpace(s[|s| - 1])
    ensures Trim(s) == s
  {
    assert TrimStart(s) == s;
  }

  /** Reading back the decimal text of any integer gives that integer. */
  lemma ToNumberShowInt(x: int)
    ensures ToNumber(ShowInt(x)) == Int(x)
  {
    var s := ShowInt(x);
    TrimUntouched(s);
    if x < 0 {
      assert s[1..] == ShowNat(-x);
      assert !IsDigit(s[0]);
    }
  }

  /** The number of UTF-16 code units of a string: JavaScript's `.length`. */
  function Utf16Length(s: string): (n: nat)
    ensures |s| <= n <= 2 * |s|
    ensures |s| == 1 ==> n == UnitsOf(s[0])
  {
    if |s| == 0 then 0
    else Utf16Length(s[..|s| - 1]) + UnitsOf(s[|s| - 1])
  }

  /** The UTF-16 code units one character takes: two for a character outside the Basic Multilingual Plane. */
  function UnitsOf(c: char): nat {
    if c as int > 0xFFFF then 2 else 1
  }

  /** `.length` is additive: the length of a concatenation is the sum of the lengths. */
  lemma {:induction false} Utf16LengthConcat(a: string, b: string)
    ensures Utf16Length(a + b) == Utf16Length(a) + Utf16Length(b)
    decreases |b|
  {
    if |b| > 0 {
      var b' := b[..|b| - 1];
      assert (a + b)[..|a + b| - 1] == a + b';
      Utf16LengthConcat(a, b');
    } else {
      assert a + b == a;
    }
  }

  /** Every character of `s` lies in the Basic Multilingual Plane. */
  predicate AllBmp(s: string) {
    forall i :: 0 <= i < |s| ==> s[i] as int <= 0xFFFF
  }

  /** A string's JavaScript length is its character count exactly when no character needs a surrogate pair. */
  lemma {:induction false} Utf16LengthIsSize(s: string)
    ensures Utf16Length(s) == |s| <==> AllBmp(s)
  {
    if |s| > 0 {
      var p := s[..|s| - 1];
      Utf16LengthIsSize(p);
      if Utf16Length(s) == |s| {
        assert Utf16Length(p) == |p|;
        forall i | 0 <= i < |s| ensures s[i] as int <= 0xFFFF {
          if i < |p| {
            assert s[i] == p[i];
          }
        }
      }
      if AllBmp(s) {
        forall i | 0 <= i < |p| ensures p[i] as int <= 0xFFFF {
          assert p[i] == s[i];
        }
      }
    }
  }
}

=== FILE: ledger.dfy ===
/**
 * The user table as the submission route sees it: a lookup by identity and an
 * overwrite of a user's token balance. The route's `getUserById` and
 * `updateUserTokens` live in app/models/user.server.ts, which is not part of
 * this model; these are the semantics the route relies on.
 */
module Ledger {
  import opened Wrappers
  import opened Ids

  /** A registered user with a token balance. */
  datatype User = User(id: Id, email: string, tokens: int)

  /** The user table, keyed by identity. */
  type Users = map<Id, User>

  /** `getUserById`: the stored user, or `None` (JavaScript `null`) when there is none. */
  function GetUserById(users: Users, id: Id): (r: Option<User>)
    ensures r.Some? <==> id in users
    ensures r.Some? ==> r.value == users[id]
  {
    if id in users then Some(users[id]) else None
  }

  /**
   * `updateUserTokens`: overwrites the balance with the absolute value given,
   * with no lower bound, and returns the updated user. Every other user and
   * every other field stays as it was.
   */
  function UpdateUserTokens(users: Users, id: Id, tokens: int): (r: (Users, User))
    requires id in users
    ensures r.1.tokens == tokens && r.1.id == users[id].id && r.1.email == users[id].email
    ensures r.0.Keys == users.Keys && r.0[id] == r.1
    ensures forall other :: other in users && other != id ==> r.0[other] == users[other]
  {
    var updated := users[id].(tokens := tokens);
    (users[id := updated], updated)
  }
}

=== FILE: route.dfy ===
/**
 * The home route (app/routes/index.tsx): the `action` that validates a prompt
 * submission, asks the completion provider, stores the history record and
 * debits the balance, and the `loader` that decides what the page shows.
 *
 * The provider call is not executed: its reply is a parameter, and the model
 * records the request the route would send. The database's fresh identity and
 * timestamp for a new record are a parameter too.
 */
module Route {
  import opened Wrappers
  import opened Ids
  import opened JsCoercion
  import opened History
  import opened Ledger

  /** Message for a missing or empty field. */
  const Required: string := "Campo obligatorio"
  /** Message for a token request above the balance. */
  const NotEnoughTokens: string := "No tienes suficientes tokens"
  /** Message for a prompt under the minimum length. */
  const TooShort: string := "M\U{ed}nimo 5 caracteres"
  /** Message thrown by the loader when the user has no history. */
  const NoQuestions: string := "No has hecho preguntas"
  /** Status text of that response. */
  const NotFoundText: string := "No encontrado"

  /** Shortest accepted prompt, in UTF-16 code units. */
  const MinPromptLength: nat := 5

  const StatusOk: int := 200
  const StatusBadRequest: int := 400
  const StatusNotFound: int := 404

  /** The posted form: `None` for a field that is absent or is not text (`typeof field !== "string"`). */
  datatype Form = Form(prompt: Option<string>, tokens: Option<string>)

  /** The `errors` object of a rejected submission: a message per field, `None` for `null`. */
  datatype FieldErrors = FieldErrors(tokens: Option<string>, prompt: Option<string>)

  /** A submission that passed every check: its prompt and its coerced token count. */
  datatype Approved = Approved(prompt: string, cost: Num)

  /** What the provider sent back: a list of choice texts, or a body without one (an error body, or the caught fetch failure). */
  datatype ProviderReply = Choices(texts: seq<string>) | NoChoiceList

  /**
   * The arguments the route passes to `makeRequest`: the prompt and `max_tokens`.
   * A NaN `max_tokens` is serialised by `JSON.stringify` as `null` on the wire.
   */
  datatype ProviderRequest = ProviderRequest(prompt: string, maxTokens: Num)

  /** Why a request ends in an uncaught exception instead of a JSON response. */
  datatype FaultKind =
    | MissingChoice     // `data.choices[0].text` on a reply with no first choice
    | MissingUser       // no stored user to attach the record to or to debit
    | NonNumericCost    // a token count that coerced to NaN reached the database write

  /** The body of the JSON response. */
  datatype Body =
    | Invalid(errors: FieldErrors)
    | Created(addedCompletion: Completion, updatedUser: User)

  /** The route's answer: a JSON body with its status, or an uncaught exception. */
  datatype Response = Json(status: int, body: Body) | Fault(kind: FaultKind)

  /** The persistent state the route reads and writes. */
  datatype Db = Db(completions: Store, users: Users)

  /** The response, the database afterwards, and the provider request sent, if any. */
  datatype Outcome = Outcome(response: Response, db: Db, sent: Option<ProviderRequest>)

  /** The `errors` field of a response body: `None` stands for `errors: null`. */
  function Errors(body: Body): Option<FieldErrors> {
    if body.Invalid? then Some(body.errors) else None
  }

  /** Exactly one of the two fields carries a message. */
  predicate ExactlyOneError(e: FieldErrors) {
    e.tokens.Some? != e.prompt.Some?
  }

  /**
   * The four checks of `action`, in the source's order, each ending the
   * request at its first failure: tokens present, tokens within the balance
   * (only when a user was found), prompt present, prompt long enough.
   */
  function Validate(form: Form, user: Option<User>): (r: Result<Approved, FieldErrors>)
    ensures r.Failure? ==> ExactlyOneError(r.error)
    ensures r.Success? ==> form.prompt == Some(r.value.prompt) && |r.value.prompt| > 0
    ensures r.Success? ==> Utf16Length(r.value.prompt) >= MinPromptLength
    ensures r.Success? ==> form.tokens.Some? && form.tokens.value != [] && r.value.cost == ToNumber(form.tokens.value)
    ensures r.Success? && user.Some? && r.value.cost.Int? ==> r.value.cost.v <= user.value.tokens
  {
    if form.tokens.None? || Utf16Length(form.tokens.value) == 0 then
      Failure(FieldErrors(Some(Required), None))
    else if user.Some? && GreaterThan(ToNumber(form.tokens.value), user.value.tokens) then
      Failure(FieldErrors(Some(NotEnoughTokens), None))
    else if form.prompt.None? || Utf16Length(form.prompt.value) == 0 then
      Failure(FieldErrors(None, Some(Required)))
    else if Utf16Length(form.prompt.value) < MinPromptLength then
      Failure(FieldErrors(None, Some(TooShort)))
    else
      Success(Approved(form.prompt.value, ToNumber(form.tokens.value)))
  }

  /** `data.choices[0].text`: the first choice's text, if the reply has one. */
  function FirstChoice(reply: ProviderReply): (r: Option<string>)
    ensures r.Some? <==> reply.Choices? && |reply.texts| > 0
    ensures r.Some? ==> r.value == reply.texts[0]
  {
    if reply.Choices? && |reply.texts| > 0 then Some(reply.texts[0]) else None
  }

  /**
   * `action`: validates the submission; on success sends the provider
   * request, stores the answer as a new history record costing the requested
   * tokens, and overwrites the balance with the old balance minus that cost.
   */
  function Action(db: Db, userId: Id, form: Form, reply: ProviderReply, stamp: Stamp): (out: Outcome)
    ensures out.response.Json? ==> out.response.status == StatusOk || out.response.status == StatusBadRequest
    ensures out.sent.None? <==> out.response.Json? && out.response.status == StatusBadRequest
    ensures out.response.Json? && out.response.status == StatusBadRequest ==>
      && out.response.body.Invalid?
      && ExactlyOneError(out.response.body.errors)
    ensures !(out.response.Json? && out.response.status == StatusOk) ==> out.db == db
    ensures out.response.Json? && out.response.status == StatusOk ==>
      && out.response.body.Created?
      && Errors(out.response.body) == None
      && var added := out.response.body.addedCompletion;
      var updated := out.response.body.updatedUser;
      && userId in db.users
      && form.prompt == Some(added.prompt)
      && form.tokens.Some? && ToNumber(form.tokens.value) == Int(added.tokens)
      && added.userId == userId && added.id == stamp.id && added.createdAt == stamp.createdAt
      && reply.Choices? && |reply.texts| > 0 && added.answer == reply.texts[0]
      && out.sent == Some(ProviderRequest(added.prompt, Int(added.tokens)))
      && updated == db.users[userId].(tokens := db.users[userId].tokens - added.tokens)
      && updated.tokens >= 0
      && out.db.completions == db.completions + [added]
      && out.db.users == db.users[userId := updated]
  {
    var user := GetUserById(db.users, userId);
    match Validate(form, user)
    case Failure(errors) =>
      Outcome(Json(StatusBadRequest, Invalid(errors)), db, None)
    case Success(ok) =>
      var sent := Some(ProviderRequest(ok.prompt, ok.cost));
      match FirstChoice(reply)
      case None => Outcome(Fault(MissingChoice), db, sent)
      case Some(answer) =>
        if user.None? then Outcome(Fault(MissingUser), db, sent)
        else if ok.cost.NaN? then Outcome(Fault(NonNumericCost), db, sent)
        else
          var (completions, added) := CreateCompletion(db.completions, stamp, ok.prompt, ok.cost.v, answer, userId);
          var (users, updated) := UpdateUserTokens(db.users, userId, user.value.tokens - ok.cost.v);
          Outcome(Json(StatusOk, Created(added, updated)), Db(completions, users), sent)
  }

  /** The body of the loader's response. */
  datatype LoaderBody =
    | NoData                                             // `{ completions: null, user: null }`
    | Message(message: string)                           // `{ message }`
    | Page(completions: seq<ListItem>, user: User)

  /** The loader's response: thrown or returned, its status, its status text if set, and its body. */
  datatype LoaderResponse = LoaderResponse(thrown: bool, status: int, statusText: Option<string>, body: LoaderBody)

  /**
   * `loader`: 404 when the user is gone or has asked nothing yet, otherwise
   * 200 with the user's latest prompts and the user.
   */
  function Loader(db: Db, userId: Id): (r: LoaderResponse)
    ensures r.status == StatusOk || r.status == StatusNotFound
    ensures r.thrown <==> r.status == StatusNotFound
    ensures r.status == StatusOk <==> userId in db.users && |Owned(db.completions, userId)| > 0
    ensures r.status == StatusOk ==>
      && r.body.Page?
      && r.body.user == db.users[userId]
      && 0 < |r.body.completions| <= PageSize
      && r.body.completions == ListItems(db.completions, userId)
    ensures userId !in db.users ==> r.body == NoData
    ensures userId in db.users && r.status == StatusNotFound ==>
      r.body == Message(NoQuestions) && r.statusText == Some(NotFoundText)
  {
    var user := GetUserById(db.users, userId);
    if user.None? then
      LoaderResponse(true, StatusNotFound, None, NoData)
    else
      var completions := ListItems(db.completions, userId);
      RecentCount(db.completions, userId);
      if |completions| == 0 then
        LoaderResponse(true, StatusNotFound, Some(NotFoundText), Message(NoQuestions))
      else
        LoaderResponse(false, StatusOk, None, Page(completions, user.value))
  }
}

=== FILE: route_properties.dfy ===
/** Properties of the home route's `action` and `loader`, stated over all inputs and on the documented scenarios. */
module RouteProperties {
  import opened Wrappers
  import opened Ids
  import opened JsCoercion
  import opened History
  import opened Ledger
  import opened Route

  /** The checks `Validate` applies, stated as one condition. */
  predicate Acceptable(form: Form, user: Option<User>) {
    && form.tokens.Some? && form.tokens.value != []
    && !(user.Some? && GreaterThan(ToNumber(form.tokens.value), user.value.tokens))
    && form.prompt.Some? && Utf16Length(form.prompt.value) >= MinPromptLength
  }

  /** A submission passes validation exactly when all four checks pass. */
  lemma ValidateAcceptsIff(form: Form, user: Option<User>)
    ensures Validate(form, user).Success? <==> Acceptable(form, user)
  {
  }

  /** Missing or empty tokens are reported first, whatever the prompt, the user and the provider. */
  lemma MissingTokensRejected(db: Db, userId: Id, form: Form, reply: ProviderReply, stamp: Stamp)
    requires form.tokens.None? || form.tokens.value == []
    ensures var out := Action(db, userId, form, reply, stamp);
      && out.response == Json(StatusBadRequest, Invalid(FieldErrors(Some(Required), None)))
      && out.db == db && out.sent == None
  {
  }

  /**
   * A request above the balance of a stored user is refused before the
   * prompt is looked at: a missing or too short prompt still gets the tokens error.
   */
  lemma NotEnoughTokensRejected(db: Db, userId: Id, form: Form, reply: ProviderReply, stamp: Stamp)
    requires form.tokens.Some? && form.tokens.value != []
    requires userId in db.users
    requires ToNumber(form.tokens.value).Int? && ToNumber(form.tokens.value).v > db.users[userId].tokens
    ensures var out := Action(db, userId, form, reply, stamp);
      && out.response == Json(StatusBadRequest, Invalid(FieldErrors(Some(NotEnoughTokens), None)))
      && out.db == db && out.sent == None
  {
  }

  /** With acceptable tokens, a missing or empty prompt is reported on the prompt field. */
  lemma MissingPromptRejected(db: Db, userId: Id, form: Form, reply: ProviderReply, stamp: Stamp)
    requires form.tokens.Some? && form.tokens.value != []
    requires userId in db.users ==> !GreaterThan(ToNumber(form.tokens.value), db.users[userId].tokens)
    requires form.prompt.None? || form.prompt.value == []
    ensures var out := Action(db, userId, form, reply, stamp);
      && out.response == Json(StatusBadRequest, Invalid(FieldErrors(None, Some(Required))))
      && out.db == db && out.sent == None
  {
  }

  /** With acceptable tokens, a prompt of one to four UTF-16 code units is too short. */
  lemma ShortPromptRejected(db: Db, userId: Id, form: Form, reply: ProviderReply, stamp: Stamp)
    requires form.tokens.Some? && form.tokens.value != []
    requires userId in db.users ==> !GreaterThan(ToNumber(form.tokens.value), db.users[userId].tokens)
    requires form.prompt.Some? && 1 <= Utf16Length(form.prompt.value) < MinPromptLength
    ensures var out := Action(db, userId, form, reply, stamp);
      && out.response == Json(StatusBadRequest, Invalid(FieldErrors(None, Some(TooShort))))
      && out.db == db && out.sent == None
  {
  }

  /** A prompt of exactly five ordinary characters passes the length check. */
  lemma FiveCharacterPromptAccepted(form: Form, user: Option<User>)
    requires form.tokens.Some? && form.tokens.value != []
    requires !(user.Some? && GreaterThan(ToNumber(form.tokens.value), user.value.tokens))
    requires form.prompt.Some? && |form.prompt.value| == 5 && AllBmp(form.prompt.value)
    ensures Validate(form, user).Success?
  {
    Utf16LengthIsSize(form.prompt.value);
  }

  /**
   * The request completes exactly when validation passes, the provider reply
   * has a first choice, the user is stored and the token count is a number.
   */
  lemma ActionSucceedsIff(db: Db, userId: Id, form: Form, reply: ProviderReply, stamp: Stamp)
    ensures var out := Action(db, userId, form, reply, stamp);
      out.response.Json? && out.response.status == StatusOk
      <==>
      && Acceptable(form, GetUserById(db.users, userId))
      && reply.Choices? && |reply.texts| > 0
      && userId in db.users
      && ToNumber(form.tokens.value).Int?
  {
  }

  /**
   * A request for `n` tokens, written in decimal, by a stored user holding at
   * least `n`, with a long enough prompt and a provider answer, succeeds: the
   * balance drops by exactly `n` and one record costing `n` is appended.
   * Nothing rejects a negative `n`, which raises the balance.
   */
  lemma AcceptedDebitsRequest(db: Db, userId: Id, prompt: string, n: int, reply: ProviderReply, stamp: Stamp)
    requires userId in db.users && db.users[userId].tokens >= n
    requires Utf16Length(prompt) >= MinPromptLength
    requires reply.Choices? && |reply.texts| > 0
    ensures var out := Action(db, userId, Form(Some(prompt), Some(ShowInt(n))), reply, stamp);
      && out.response.Json? && out.response.status == StatusOk
      && out.db.users[userId].tokens == db.users[userId].tokens - n
      && |out.db.completions| == |db.completions| + 1
      && out.db.completions[|db.completions|].tokens == n
      && out.db.completions[|db.completions|].prompt == prompt
  {
    ToNumberShowInt(n);
    var form := Form(Some(prompt), Some(ShowInt(n)));
    assert Acceptable(form, GetUserById(db.users, userId));
    ActionSucceedsIff(db, userId, form, reply, stamp);
  }

  /** Spending the whole balance leaves exactly zero. */
  lemma SpendingWholeBalanceLeavesZero(db: Db, userId: Id, prompt: string, reply: ProviderReply, stamp: Stamp)
    requires userId in db.users && db.users[userId].tokens >= 0
    requires Utf16Length(prompt) >= MinPromptLength
    requires reply.Choices? && |reply.texts| > 0
    ensures var form := Form(Some(prompt), Some(ShowInt(db.users[userId].tokens)));
      Action(db, userId, form, reply, stamp).db.users[userId].tokens == 0
  {
    AcceptedDebitsRequest(db, userId, prompt, db.users[userId].tokens, reply, stamp);
  }

  /** Every stored balance is at least zero. */
  predicate BalancesNonNegative(users: Users) {
    forall id :: id in users ==> users[id].tokens >= 0
  }

  /** No request, accepted, refused or faulting, drives a stored balance below zero. */
  lemma ActionKeepsBalancesNonNegative(db: Db, userId: Id, form: Form, reply: ProviderReply, stamp: Stamp)
    requires BalancesNonNegative(db.users)
    ensures BalancesNonNegative(Action(db, userId, form, reply, stamp).db.users)
  {
  }

  /** No request changes another user's balance or history. */
  lemma ActionTouchesOnlyItsUser(db: Db, userId: Id, form: Form, reply: ProviderReply, stamp: Stamp, other: Id)
    requires other != userId
    ensures var out := Action(db, userId, form, reply, stamp);
      && (other in out.db.users <==> other in db.users)
      && (other in db.users ==> out.db.users[other] == db.users[other])
      && Owned(out.db.completions, other) == Owned(db.completions, other)
  {
    var out := Action(db, userId, form, reply, stamp);
    if out.response.Json? && out.response.status == StatusOk {
      var added := out.response.body.addedCompletion;
      assert out.db.completions == CreateCompletion(db.completions, stamp, added.prompt, added.tokens, added.answer, userId).0;
    }
  }

  /** Without a stored user the balance check is skipped; the request then faults after the provider call and stores nothing. */
  lemma MissingUserFaultsAfterProviderCall(db: Db, userId: Id, form: Form, reply: ProviderReply, stamp: Stamp)
    requires userId !in db.users
    requires form.tokens.Some? && form.tokens.value != []
    requires form.prompt.Some? && Utf16Length(form.prompt.value) >= MinPromptLength
    requires reply.Choices? && |reply.texts| > 0
    ensures var out := Action(db, userId, form, reply, stamp);
      && out.response == Fault(MissingUser)
      && out.sent == Some(ProviderRequest(form.prompt.value, ToNumber(form.tokens.value)))
      && out.db == db
  {
  }

  /**
   * A successful submission followed by a page load: when the new record is
   * the user's newest, the loader answers 200 and lists its prompt first.
   */
  lemma SubmitThenLoad(db: Db, userId: Id, form: Form, reply: ProviderReply, stamp: Stamp)
    requires forall c :: c in Owned(db.completions, userId) ==> c.createdAt < stamp.createdAt
    requires var out := Action(db, userId, form, reply, stamp);
      out.response.Json? && out.response.status == StatusOk
    ensures var out := Action(db, userId, form, reply, stamp);
      var page := Loader(out.db, userId);
      && page.status == StatusOk
      && page.body.completions[0] == ListItem(stamp.id, form.prompt.value)
  {
    var out := Action(db, userId, form, reply, stamp);
    var added := out.response.body.addedCompletion;
    LatestListedFirst(db.completions, stamp, added.prompt, added.tokens, added.answer, userId);
    assert out.db.completions == CreateCompletion(db.completions, stamp, added.prompt, added.tokens, added.answer, userId).0;
  }

  /** The stored user of the scenarios below. */
  function ScenarioDb(balance: int): Db {
    Db([], map["u" := User("u", "u@example.com", balance)])
  }

  /** Balance 100, prompt "Hello there", tokens "50": accepted, balance 50, one record costing 50. */
  lemma ScenarioAccepted()
    ensures var out := Action(ScenarioDb(100), "u", Form(Some("Hello there"), Some("50")), Choices(["Hi!"]), Stamp("c1", 1));
      && out.response.Json? && out.response.status == StatusOk
      && out.db.users["u"].tokens == 50
      && |out.db.completions| == 1 && out.db.completions[0].tokens == 50
  {
    assert ShowInt(50) == "50";
    AcceptedDebitsRequest(ScenarioDb(100), "u", "Hello there", 50, Choices(["Hi!"]), Stamp("c1", 1));
  }

  /** Balance 10, tokens "50": refused on the tokens field, nothing stored, balance still 10. */
  lemma ScenarioNotEnoughTokens()
    ensures var db := ScenarioDb(10);
      var out := Action(db, "u", Form(Some("Hello there"), Some("50")), Choices(["Hi!"]), Stamp("c1", 1));
      && out.response == Json(StatusBadRequest, Invalid(FieldErrors(Some(NotEnoughTokens), None)))
      && out.db == db && out.db.users["u"].tokens == 10
  {
    assert ShowInt(50) == "50";
    ToNumberShowInt(50);
    NotEnoughTokensRejected(ScenarioDb(10), "u", Form(Some("Hello there"), Some("50")), Choices(["Hi!"]), Stamp("c1", 1));
  }

  /** Balance 100, prompt "Hi", tokens "10": refused on the prompt field, nothing stored. */
  lemma ScenarioPromptTooShort()
    ensures var db := ScenarioDb(100);
      var out := Action(db, "u", Form(Some("Hi"), Some("10")), Choices(["Hi!"]), Stamp("c1", 1));
      && out.response == Json(StatusBadRequest, Invalid(FieldErrors(None, Some(TooShort))))
      && out.db == db
  {
    assert ShowInt(10) == "10";
    ToNumberShowInt(10);
    var db := ScenarioDb(100);
    var form := Form(Some("Hi"), Some("10"));
    assert Utf16Length("Hi") == 2;
    ShortPromptRejected(db, "u", form, Choices(["Hi!"]), Stamp("c1", 1));
  }

  /** A token text that reads as NaN passes the balance check of a stored user and faults at the database write, after the provider call. */
  lemma NonNumericCostFaults(db: Db, userId: Id, form: Form, reply: ProviderReply, stamp: Stamp)
    requires userId in db.users
    requires form.tokens.Some? && form.tokens.value != [] && ToNumber(form.tokens.value) == NaN
    requires form.prompt.Some? && Utf16Length(form.prompt.value) >= MinPromptLength
    requires reply.Choices? && |reply.texts| > 0
    ensures var out := Action(db, userId, form, reply, stamp);
      && out.response == Fault(NonNumericCost)
      && out.sent == Some(ProviderRequest(form.prompt.value, NaN))
      && out.db == db
  {
  }

  /** The text "abc" coerces to NaN. */
  lemma AbcIsNaN()
    ensures ToNumber("abc") == NaN
  {
    TrimUntouched("abc");
  }

  /** A leading zero is read through: "0" followed by digit text reads as that text's value. */
  lemma LeadingZeroReadThrough(d: string)
    requires d != [] && AllDigits(d)
    ensures ToNumber("0" + d) == Int(DigitsValue(d))
  {
    DigitsValueLeadingZero(d);
    DigitsReadAsValue("0" + d);
  }

  /** Exponent text, which a number input can submit, reads as NaN in this model. */
  lemma ExponentTextIsNaN()
    ensures ToNumber("1e3") == NaN
  {
    NonDigitAfterFirstIsNaN("1e3", 1);
  }

  /** Tokens "abc" coerce to NaN, pass the balance check even at balance 0, and fault at the database write. */
  lemma ScenarioNonNumericTokens()
    ensures var db := ScenarioDb(0);
      var out := Action(db, "u", Form(Some("Hello there"), Some("abc")), Choices(["Hi!"]), Stamp("c1", 1));
      && out.response == Fault(NonNumericCost)
      && out.sent == Some(ProviderRequest("Hello there", NaN))
      && out.db == db
  {
    AbcIsNaN();
    NonNumericCostFaults(ScenarioDb(0), "u", Form(Some("Hello there"), Some("abc")), Choices(["Hi!"]), Stamp("c1", 1));
  }

  /** JavaScript counts a character outside the Basic Multilingual Plane twice: three emoji pass the five-unit minimum. */
  lemma ScenarioAstralPrompt()
    ensures Utf16Length("\U{1F600}\U{1F600}\U{1F600}") == 6
    ensures Validate(Form(Some("\U{1F600}\U{1F600}\U{1F600}"), Some("1")), None).Success?
  {
    var p := "\U{1F600}\U{1F600}\U{1F600}";
    assert Utf16Length(p) == 6 by {
      assert p[..2] == "\U{1F600}\U{1F600}" && p[..2][..1] == "\U{1F600}" && p[..2][..1][..0] == "";
    }
  }
}

=== FILE: wrappers.dfy ===
/** Failure-compatible result types shared by the other modules. */
module Wrappers {

  /** A value that may be missing: the model's stand-in for JavaScript's `null`/`undefined`. */
  datatype Option<+T> = None | Some(value: T)

  /** Either a value or an error. */
  datatype Result<+R, +E> = Success(value: R) | Failure(error: E)
}
